=== FILE: README.md ===
# Contract.Requires not-null refactoring, modelled in Dafny

This project models RefactoringEssentials' `ContractRequiresNotNullCodeRefactoringProvider`.
When the cursor is on a parameter's identifier, the provider offers to insert
`Contract.Requires(p != null);` as the first statement of the owning member's body.
If `using System.Diagnostics.Contracts;` is not already there, it adds that too.

The model is a set of pure functions over a miniature immutable C# syntax tree:

- `wrappers.dfy` (`Wrappers`): `Option`.
- `syntax.dfy` (`Syntax`): spans, identifier tokens, expressions, statements, blocks, members and
  the compilation unit. It also holds the pre-order traversals that stand in for Roslyn's
  `DescendantNodes`, and the member's first block child.
- `provider.dfy` (`ContractRequiresNotNull`): the guard cascade (`Recognize`) and `GetActions`.
  It also holds the synthesized statement, the using-directive check and insertion, the
  contract detector, and the edit (`ApplyAction`).
- `properties.dfy` (`ContractRequiresNotNullProperties`): idempotence, detector behaviour on
  nested and extended statements, using-directive uniqueness, and the counterexample for the
  finding below.

The semantic model's answers are plain inputs (`HostFacts`): whether the parameter's type is
unknown, a value type, or known and not a value type. The last case, `KnownType(false)`, covers
reference types and also unconstrained type parameters and pointers, because the code tests only
`IsValueType` (line 33). The position where Roslyn's `AddUsingDirective`
puts the new directive is an input too, clamped to the list. The parameter node's
`Parent.Parent` is replaced by a `ParameterRef` (member index, parameter index). The symbol's
name is taken as the identifier's value text. In the model, the value text is the token text
with a leading verbatim `@` removed.

The detector scans every expression statement in the body at any depth, because the code uses
`DescendantNodes` (line 83).

## Model

| member | source | states |
|---|---|---|
| `Syntax.FirstBlockChild` | RefactoringEssentials/CSharp/CodeRefactorings/Synced/ContractRequiresNotNullCodeRefactoringProvider.cs:27 | The body is the first block among the member's direct children. None is returned exactly when no child is a block (expression-bodied, abstract, indexer accessor lists). |
| `ContractRequiresNotNull.Recognize` | RefactoringEssentials/CSharp/CodeRefactorings/Synced/ContractRequiresNotNullCodeRefactoringProvider.cs:24-34 | The guard cascade. The span guard fires exactly when the span is not inside the identifier span. The no-body guard fires exactly when the span passes and there is no block child. An offer is made iff all four guards pass. |
| `ContractRequiresNotNull.GetActions` | RefactoringEssentials/CSharp/CodeRefactorings/Synced/ContractRequiresNotNullCodeRefactoringProvider.cs:22-49 | At most one action. None if the span is outside the identifier, there is no block body, the type is unknown or a value type, or a contract exists. One action iff all guards pass, with the identifier's span as trigger, severity Info, and the applied edit as its result. |
| `ContractRequiresNotNull.GetActionsAsWritten` | RefactoringEssentials/CSharp/CodeRefactorings/Synced/ContractRequiresNotNullCodeRefactoringProvider.cs:22-49 | The same cascade with the detector exactly as written (raw identifier texts). One action iff the guards pass under that detector. It then has the identifier's span as trigger, severity Info, the title, and the applied edit as its result. |
| `ContractRequiresNotNull.CreateContractRequiresCall` | RefactoringEssentials/CSharp/CodeRefactorings/Synced/ContractRequiresNotNullCodeRefactoringProvider.cs:51-66 | The synthesized node is an expression statement invoking `Contract.Requires` with exactly one argument, the test `name != null`. Its identifiers in pre-order are exactly `[Contract, Requires, name]`, because the null literal adds none. |
| `ContractRequiresNotNull.AnyUsingNamed` | RefactoringEssentials/CSharp/CodeRefactorings/Synced/ContractRequiresNotNullCodeRefactoringProvider.cs:70 | The `Any` scan finds a directive iff the exact name occurs in the list. |
| `ContractRequiresNotNull.UsingStatementNotPresent` | RefactoringEssentials/CSharp/CodeRefactorings/Synced/ContractRequiresNotNullCodeRefactoringProvider.cs:68-71 | True iff no top-level using directive is named exactly `System.Diagnostics.Contracts`. |
| `ContractRequiresNotNull.AddUsingStatement` | RefactoringEssentials/CSharp/CodeRefactorings/Synced/ContractRequiresNotNullCodeRefactoringProvider.cs:73-79 | The members are unchanged. The new usings are the old ones in their order with `System.Diagnostics.Contracts` inserted at one position, so the multiset gains exactly that one name. |
| `ContractRequiresNotNull.HasNotNullContract` | RefactoringEssentials/CSharp/CodeRefactorings/Synced/ContractRequiresNotNullCodeRefactoringProvider.cs:81-93 | True iff some expression statement anywhere in the body flattens to `[Contract, Requires, name]` (corrected comparison, see Findings). |
| `ContractRequiresNotNull.StatementsHaveContract` | RefactoringEssentials/CSharp/CodeRefactorings/Synced/ContractRequiresNotNullCodeRefactoringProvider.cs:83-91 | The early-exit walk over a statement list agrees with the reference scan of all its descendant expression statements. |
| `ContractRequiresNotNull.StatementHasContract` | RefactoringEssentials/CSharp/CodeRefactorings/Synced/ContractRequiresNotNullCodeRefactoringProvider.cs:83-91 | The walk into one statement, including nested blocks and both `if` branches, agrees with the reference scan. |
| `ContractRequiresNotNull.HasNotNullContractAsWritten` | RefactoringEssentials/CSharp/CodeRefactorings/Synced/ContractRequiresNotNullCodeRefactoringProvider.cs:81-93 | The detector as written. For a symbol name without a leading `@`, whatever it finds the corrected detector finds too. |
| `ContractRequiresNotNull.ReplaceBody` | RefactoringEssentials/CSharp/CodeRefactorings/Synced/ContractRequiresNotNullCodeRefactoringProvider.cs:42 | `ReplaceNode` of the body changes only that child of that member. Usings, other members, the member's name, parameters and other children are unchanged. |
| `ContractRequiresNotNull.ApplyAction` | RefactoringEssentials/CSharp/CodeRefactorings/Synced/ContractRequiresNotNullCodeRefactoringProvider.cs:39-47 | The new body is the contract statement followed by all old statements in order. Everything else in the root is unchanged. The contracts using is present afterwards. Usings stay identical if it was already there. Otherwise they gain exactly that name at one position. |
| `ContractRequiresNotNull.FirstBlockChildAfterReplace` | RefactoringEssentials/CSharp/CodeRefactorings/Synced/ContractRequiresNotNullCodeRefactoringProvider.cs:27 | After the body is replaced, the first block child of the member is still at the same position. |
| `ContractRequiresNotNullProperties.ContractStatementDetected` | RefactoringEssentials/CSharp/CodeRefactorings/Synced/ContractRequiresNotNullCodeRefactoringProvider.cs:40 | A body that starts with the synthesized statement is recognised as holding a contract for the parameter's symbol name. |
| `ContractRequiresNotNullProperties.Idempotence` | RefactoringEssentials/CSharp/CodeRefactorings/Synced/ContractRequiresNotNullCodeRefactoringProvider.cs:33-44 | After the edit, the member's body holds a recognised contract for the parameter. No later invocation on that parameter offers the action, whatever the span or host facts. Because `GetActions`' action yields exactly this edit, a second invocation offers nothing. |
| `ContractRequiresNotNullProperties.DetectionSurvivesPrepend` | RefactoringEssentials/CSharp/CodeRefactorings/Synced/ContractRequiresNotNullCodeRefactoringProvider.cs:83 | Putting a statement in front of a body never hides a contract the body already had. |
| `ContractRequiresNotNullProperties.NestedContractDetected` | RefactoringEssentials/CSharp/CodeRefactorings/Synced/ContractRequiresNotNullCodeRefactoringProvider.cs:83 | A contract inside a block nested under an `if` is still found, because descendants are scanned, not only top-level statements. |
| `ContractRequiresNotNullProperties.ConjunctionNotDetected` | RefactoringEssentials/CSharp/CodeRefactorings/Synced/ContractRequiresNotNullCodeRefactoringProvider.cs:85-87 | `Contract.Requires(x != null && y != null)` has four identifiers and is never taken as a contract. |
| `ContractRequiresNotNullProperties.QualifiedContractNotDetected` | RefactoringEssentials/CSharp/CodeRefactorings/Synced/ContractRequiresNotNullCodeRefactoringProvider.cs:85-87 | The fully qualified `System.Diagnostics.Contracts.Contract.Requires(p != null)` is not taken as a contract. |
| `ContractRequiresNotNullProperties.UsingPresentExactlyOnce` | RefactoringEssentials/CSharp/CodeRefactorings/Synced/ContractRequiresNotNullCodeRefactoringProvider.cs:44 | If the contracts using occurred at most once before, it occurs exactly once after the edit. Every earlier directive is kept. |
| `ContractRequiresNotNullProperties.AsWrittenMissesVerbatimContract` | RefactoringEssentials/CSharp/CodeRefactorings/Synced/ContractRequiresNotNullCodeRefactoringProvider.cs:85-87 | The raw-text detector does not take `Contract.Requires(@class != null);` as a contract for the symbol `class`. |
| `ContractRequiresNotNullProperties.VerbatimFirstApplicationAsWritten` | RefactoringEssentials/CSharp/CodeRefactorings/Synced/ContractRequiresNotNullCodeRefactoringProvider.cs:35-44 | For `M(object @class) { }`, the as-written cascade offers one action. Its edit leaves the parameter in place and makes the body exactly one inserted contract. |
| `ContractRequiresNotNullProperties.VerbatimSecondApplicationAsWritten` | RefactoringEssentials/CSharp/CodeRefactorings/Synced/ContractRequiresNotNullCodeRefactoringProvider.cs:33-44 | On any root where the `@class` parameter's body holds just that contract, the as-written cascade offers the action again. Its edit leaves two identical contracts. |
| `ContractRequiresNotNullProperties.VerbatimParameterOfferedTwiceAsWritten` | RefactoringEssentials/CSharp/CodeRefactorings/Synced/ContractRequiresNotNullCodeRefactoringProvider.cs:87 | With the detector as written, `M(object @class) { }` is offered the action again after one application. Applying it twice yields two identical contract statements. |
| `ContractRequiresNotNullProperties.AsWrittenIdempotentForPlainIdentifier` | RefactoringEssentials/CSharp/CodeRefactorings/Synced/ContractRequiresNotNullCodeRefactoringProvider.cs:85-87 | When the parameter's text does not start with `@`, the detector as written recognises the inserted statement, and the as-written cascade offers nothing after the edit. The slip is confined to identifiers whose text differs from their value text. That means verbatim `@` identifiers and Unicode-escaped ones; the model represents only the `@` case. |

## Findings

| source | as written | input that shows it | evidently intended | confidence | as-written member | corrected member |
|---|---|---|---|---|---|---|
| RefactoringEssentials/CSharp/CodeRefactorings/Synced/ContractRequiresNotNullCodeRefactoringProvider.cs:87 | The detector compares each identifier's `Identifier.Text`, which keeps a verbatim `@`, with `parameterSymbol.Name`, which has no `@`. The inserted statement is built from `node.Identifier.ToString()`, which also keeps the `@`. Unicode-escaped names (`\u0070`) slip the same way, but the model represents only the `@` case. | `void M(object @class) { }` with the cursor on `@class`. After one application the body is `Contract.Requires(@class != null);`. The detector sees `[Contract, Requires, @class]` and compares it with `[Contract, Requires, class]`, so the action is offered again. | Compare identifier value texts (`Identifier.ValueText`) with the symbol name, so the inserted statement is always recognised and the refactoring is idempotent. | medium, not executed | `ContractRequiresNotNullProperties.VerbatimParameterOfferedTwiceAsWritten` | `ContractRequiresNotNullProperties.Idempotence` |

`GetActions` uses the corrected detector, `HasNotNullContract`. `GetActionsAsWritten` and
`HasNotNullContractAsWritten` keep the comparison exactly as the code writes it.

## Left out

- Roslyn plumbing: `Document`, `Task.FromResult`, `document.WithSyntaxRoot` and the
  `CancellationToken`. The edit is modelled as the new root it yields. The apply lambda ignores
  its argument, so that root is fixed when the action is offered.
- `SemanticModel.GetDeclaredSymbol`: the parameter's type is an input, and the symbol name is
  the identifier's value text. A null symbol would make the code throw, and that case is not
  modelled.
- How the base class `SpecializedCodeRefactoringProvider` finds the parameter node at the
  cursor: the node is given as a `ParameterRef`. That class is not part of this model.
- Formatter and Simplifier annotations (lines 65 and 76): deferred formatting hints with no
  effect on structure.
- Localization through `GettextCatalog.GetString` and the export attribute (lines 16 and 38):
  the title is the untranslated constant.
- Where `AddUsingDirective` places the directive: Roslyn chooses it (it may sort `System`
  namespaces first or use a namespace declaration's usings). The model takes the position as an
  input at compilation-unit level. Its contracts state membership, the count and the order of
  the old directives, not the position.
- Namespace declarations and their own using directives: the compilation unit holds members
  directly. `UsingStatementNotPresent` looks only at top-level usings, as the code does.
- Lambdas and other expression forms that can hold statements: the code would also scan
  expression statements inside a lambda body. The model's expressions have no statement
  children.
- `using` names are compared as whole strings, like `u.Name.ToString()`. Whitespace or
  comments inside a qualified name are not modelled.
- Identifiers written with Unicode escapes (`\u0070`): Roslyn's value text, and so the symbol
  name, decodes them, but `Syntax.ValueText` strips only a leading `@`. For such a parameter the
  model's symbol name keeps the escape, where Roslyn's would not. This hides a second instance
  of the finding above: for `M(object \u0070) { }` the inserted `Contract.Requires(\u0070 != null);`
  has text `\u0070`, the symbol name is `p`, so the code as written offers the action again and
  inserts a duplicate contract. The model cannot show that.
- Parameters of local functions, parenthesized lambdas and anonymous methods: the code offers
  the action for them too, because their `Parent.Parent` may have a block child. A
  `ParameterRef` reaches only the compilation unit's members.
- Statements other than expression statements, blocks, `if` and `return` keep only their child
  statements, catch and finally blocks and switch sections included (`CompoundStatement`).
  Their conditions, resource declarations and catch filters hold no expression statements, so
  the detector's result does not depend on them.

=== FILE: properties.dfy ===
/**
  Properties relating several calls of the refactoring: the synthesized
  statement is recognised by the detector, so a second invocation on the
  same parameter offers nothing; the edit adds the using directive at most
  once; and the detector's exact-match behaviour on nested and extended
  statements.
 */
module ContractRequiresNotNullProperties {
  import opened Wrappers
  import opened Syntax
  import opened ContractRequiresNotNull

  /** The statement the edit inserts is recognised by the detector, whatever follows it. */
  lemma ContractStatementDetected(text: string, rest: seq<Stmt>)
    ensures HasNotNullContract(Block([CreateContractRequiresCall(text)] + rest), ValueText(text))
  {
  }

  /**
    Idempotence: after the edit, the parameter's body holds a recognised
    contract, so no later invocation on that parameter, whatever the span or
    host facts, offers the action again. GetActions promises that the action
    it offers yields exactly this edit.
   */
  lemma Idempotence(root: CompilationUnit, target: ParameterRef, usingIndex: nat, span: TextSpan, facts: HostFacts)
    requires ValidTarget(root, target)
    requires OwnerBody(root, target).Some?
    ensures ValidTarget(ApplyAction(root, target, usingIndex), target)
    ensures HasNotNullContract(OwnerBody(ApplyAction(root, target, usingIndex), target).value, SymbolName(Param(root, target)))
    ensures GetActions(ApplyAction(root, target, usingIndex), target, span, facts) == []
  {
  }

  /** Adding a statement in front of a body never hides a contract the body already had. */
  lemma DetectionSurvivesPrepend(s: Stmt, rest: seq<Stmt>, symbolName: string)
    requires HasNotNullContract(Block(rest), symbolName)
    ensures HasNotNullContract(Block([s] + rest), symbolName)
  {
  }

  /** A contract inside a nested block under an `if` is still found. */
  lemma NestedContractDetected(condition: Expr, inner: Block, symbolName: string)
    requires HasNotNullContract(inner, symbolName)
    ensures HasNotNullContract(Block([IfStatement(condition, NestedBlock(inner), None)]), symbolName)
  {
  }

  /**
    `Contract.Requires(x != null && y != null);` flattens to four identifiers,
    so it never counts as a not-null contract, not even for `x`.
   */
  lemma {:induction false} ConjunctionNotDetected(x: string, y: string, symbolName: string)
    ensures !HasNotNullContract(
      Block([ExpressionStatement(Invocation(
        MemberAccess(IdentifierName("Contract"), "Requires"),
        [Binary(LogicalAnd, Binary(NotEquals, IdentifierName(x), NullLiteral), Binary(NotEquals, IdentifierName(y), NullLiteral))]))]),
      symbolName)
  {
    var arg := Binary(LogicalAnd, Binary(NotEquals, IdentifierName(x), NullLiteral), Binary(NotEquals, IdentifierName(y), NullLiteral));
    var e := Invocation(MemberAccess(IdentifierName("Contract"), "Requires"), [arg]);
    var ss := [ExpressionStatement(e)];
    assert ss[1..] == [];
    assert Identifiers(arg.left) == [x] + [];
    assert Identifiers(arg.right) == [y] + [];
    assert Identifiers(arg) == [x, y];
    assert ArgumentIdentifiers([arg]) == Identifiers(arg) + ArgumentIdentifiers([]);
    assert Identifiers(e) == ["Contract", "Requires", x, y];
    assert ListExpressionStatements(ss) == [e] + ListExpressionStatements([]);
  }

  /** A call through the qualified `System.Diagnostics.Contracts.Contract` is not recognised. */
  lemma {:induction false} QualifiedContractNotDetected(name: string, symbolName: string)
    ensures !HasNotNullContract(
      Block([ExpressionStatement(Invocation(
        MemberAccess(MemberAccess(MemberAccess(MemberAccess(IdentifierName("System"), "Diagnostics"), "Contracts"), "Contract"), "Requires"),
        [Binary(NotEquals, IdentifierName(name), NullLiteral)]))]),
      symbolName)
  {
    var arg := Binary(NotEquals, IdentifierName(name), NullLiteral);
    var e := Invocation(
      MemberAccess(MemberAccess(MemberAccess(MemberAccess(IdentifierName("System"), "Diagnostics"), "Contracts"), "Contract"), "Requires"),
      [arg]);
    var ss := [ExpressionStatement(e)];
    assert ss[1..] == [];
    assert ArgumentIdentifiers([arg]) == Identifiers(arg) + ArgumentIdentifiers([]);
    var callee := MemberAccess(MemberAccess(MemberAccess(MemberAccess(IdentifierName("System"), "Diagnostics"), "Contracts"), "Contract"), "Requires");
    assert Identifiers(callee.target.target) == ["System", "Diagnostics", "Contracts"];
    assert Identifiers(callee) == ["System", "Diagnostics", "Contracts", "Contract", "Requires"];
    assert |Identifiers(e)| == 6;
    assert ListExpressionStatements(ss) == [e] + ListExpressionStatements([]);
  }

  /**
    After the edit the contracts using directive occurs exactly once, provided
    it did not occur twice before, and every earlier directive is still there.
   */
  lemma UsingPresentExactlyOnce(root: CompilationUnit, target: ParameterRef, usingIndex: nat)
    requires ValidTarget(root, target)
    requires OwnerBody(root, target).Some?
    requires multiset(root.usings)[ContractsNamespace] <= 1
    ensures multiset(ApplyAction(root, target, usingIndex).usings)[ContractsNamespace] == 1
    ensures forall u :: u in root.usings ==> u in ApplyAction(root, target, usingIndex).usings
  {
  }

  /**
    The slip is confined to identifiers whose text differs from their value
    text: when the parameter's text does not start with `@`, even the
    detector as written recognises the inserted statement, and no later
    invocation offers the action. Identifiers written with Unicode escapes
    differ too, but the model's value text does not decode escapes, so this
    lemma does not cover them.
   */
  lemma AsWrittenIdempotentForPlainIdentifier(root: CompilationUnit, target: ParameterRef, usingIndex: nat, span: TextSpan, facts: HostFacts)
    requires ValidTarget(root, target)
    requires OwnerBody(root, target).Some?
    requires |Param(root, target).identifier.text| == 0 || Param(root, target).identifier.text[0] != '@'
    ensures GetActionsAsWritten(ApplyAction(root, target, usingIndex), target, span, facts) == []
  {
    var text := Param(root, target).identifier.text;
    var inserted := CreateContractRequiresCall(text);
    var rest := OwnerBody(root, target).value.statements;
    var ss := [inserted] + rest;
    assert ss[0] == inserted && ss[1..] == rest;
    assert ListExpressionStatements(ss) == [inserted.expr] + ListExpressionStatements(rest);
    assert inserted.expr in ExpressionStatements(Block(ss));
    assert SymbolName(Param(root, target)) == text;
  }

  /** A root with one method `M(object @class) { }`: the input that shows the detector's slip. */
  function VerbatimRoot(): CompilationUnit {
    CompilationUnit([], [Member("M", [Parameter("object", Token("@class", TextSpan(9, 6)))], [BlockChild(Block([]))])])
  }

  /** The raw-text detector does not see `Contract.Requires(@class != null);` as a contract for `class`. */
  lemma AsWrittenMissesVerbatimContract()
    ensures !HasNotNullContractAsWritten(Block([CreateContractRequiresCall("@class")]), "class")
  {
  }

  const VerbatimTarget := ParameterRef(0, 0)
  const VerbatimSpan := TextSpan(10, 0)
  const VerbatimFacts := HostFacts(KnownType(false), 0)

  /** The first as-written application to `VerbatimRoot` is offered and inserts one contract. */
  lemma VerbatimFirstApplicationAsWritten()
    ensures |GetActionsAsWritten(VerbatimRoot(), VerbatimTarget, VerbatimSpan, VerbatimFacts)| == 1
    ensures ValidTarget(GetActionsAsWritten(VerbatimRoot(), VerbatimTarget, VerbatimSpan, VerbatimFacts)[0].changedRoot, VerbatimTarget)
    ensures Param(GetActionsAsWritten(VerbatimRoot(), VerbatimTarget, VerbatimSpan, VerbatimFacts)[0].changedRoot, VerbatimTarget)
      == Param(VerbatimRoot(), VerbatimTarget)
    ensures OwnerBody(GetActionsAsWritten(VerbatimRoot(), VerbatimTarget, VerbatimSpan, VerbatimFacts)[0].changedRoot, VerbatimTarget)
      == Some(Block([CreateContractRequiresCall("@class")]))
  {
    var root := VerbatimRoot();
    assert OwnerBody(root, VerbatimTarget) == Some(Block([]));
    assert SymbolName(Param(root, VerbatimTarget)) == "class";
    assert !HasNotNullContractAsWritten(Block([]), "class") by {
      assert ListExpressionStatements([]) == [];
    }
    assert [CreateContractRequiresCall("@class")] + [] == [CreateContractRequiresCall("@class")];
  }

  /**
    On any root where the `@class` parameter's body holds just the inserted
    contract, the as-written cascade offers the action again, and applying it
    puts a second, identical contract in front.
   */
  lemma VerbatimSecondApplicationAsWritten(root: CompilationUnit)
    requires ValidTarget(root, VerbatimTarget)
    requires Param(root, VerbatimTarget) == Param(VerbatimRoot(), VerbatimTarget)
    requires OwnerBody(root, VerbatimTarget) == Some(Block([CreateContractRequiresCall("@class")]))
    ensures |GetActionsAsWritten(root, VerbatimTarget, VerbatimSpan, VerbatimFacts)| == 1
    ensures OwnerBody(GetActionsAsWritten(root, VerbatimTarget, VerbatimSpan, VerbatimFacts)[0].changedRoot, VerbatimTarget)
      == Some(Block([CreateContractRequiresCall("@class"), CreateContractRequiresCall("@class")]))
  {
    assert SymbolName(Param(root, VerbatimTarget)) == "class";
    AsWrittenMissesVerbatimContract();
    var inserted := CreateContractRequiresCall("@class");
    assert [inserted] + [inserted] == [inserted, inserted];
  }

  /**
    As written, the detector compares the raw text `@class` of the inserted
    statement with the symbol name `class`, so after one application the
    action is offered again and a second application inserts a duplicate
    contract.
   */
  lemma VerbatimParameterOfferedTwiceAsWritten()
    ensures var first := GetActionsAsWritten(VerbatimRoot(), VerbatimTarget, VerbatimSpan, VerbatimFacts);
      && |first| == 1
      && ValidTarget(first[0].changedRoot, VerbatimTarget)
      && var second := GetActionsAsWritten(first[0].changedRoot, VerbatimTarget, VerbatimSpan, VerbatimFacts);
      && |second| == 1
      && OwnerBody(second[0].changedRoot, VerbatimTarget) ==
         Some(Block([CreateContractRequiresCall("@class"), CreateContractRequiresCall("@class")]))
  {
    VerbatimFirstApplicationAsWritten();
    VerbatimSecondApplicationAsWritten(GetActionsAsWritten(VerbatimRoot(), VerbatimTarget, VerbatimSpan, VerbatimFacts)[0].changedRoot);
  }
}

=== FILE: provider.dfy ===
/**
  The "add `Contract.Requires(p != null)`" refactoring for a parameter: the
  guard cascade that decides whether the action is offered, the statement it
  synthesizes, the detector for an existing contract, and the edit it applies.
 */
module ContractRequiresNotNull {
  import opened Wrappers
  import opened Syntax

  /** The namespace whose using directive the edit makes sure of. */
  const ContractsNamespace := "System.Diagnostics.Contracts"

  /** The action's title (its localization is not modelled). */
  const Title := "Add contract requires parameter must not be null"

  /** Roslyn's DiagnosticSeverity. */
  datatype Severity = Hidden | Info | Warning | Error

  /** What the semantic model reports as the type of the parameter's symbol. */
  datatype ParameterType = UnknownType | KnownType(isValueType: bool)

  /**
    Facts supplied by the host: the parameter's type, and the position at
    which Roslyn's AddUsingDirective places a new using directive.
   */
  datatype HostFacts = HostFacts(parameterType: ParameterType, usingIndex: nat)

  /** The parameter node the refactoring was invoked on: member index, then parameter index. */
  datatype ParameterRef = ParameterRef(member: nat, parameter: nat)

  /** An offered action; its deferred edit ignores its argument, so it is kept as the root it yields. */
  datatype CodeAction = CodeAction(triggerSpan: TextSpan, severity: Severity, title: string, changedRoot: CompilationUnit)

  /** Which guard of the cascade refused the action. */
  datatype Rejection = SpanOutsideIdentifier | NoBlockBody | TypeUnknownOrValueType | ContractAlreadyPresent

  datatype Recognition = Offer(bodyIndex: nat, body: Block) | Reject(reason: Rejection)

  /** The comparison the detector uses: the one the code makes, or the corrected one. */
  datatype Detector = AsWritten | Corrected

  predicate ValidTarget(root: CompilationUnit, target: ParameterRef) {
    && target.member < |root.members|
    && target.parameter < |root.members[target.member].parameters|
  }

  function Param(root: CompilationUnit, target: ParameterRef): Parameter
    requires ValidTarget(root, target)
  {
    root.members[target.member].parameters[target.parameter]
  }

  /** The owning member's body: its first block child, if any. */
  function OwnerBody(root: CompilationUnit, target: ParameterRef): Option<Block>
    requires ValidTarget(root, target)
  {
    var children := root.members[target.member].children;
    match FirstBlockChild(children)
    case Some(i) => Some(children[i].block)
    case None => None
  }

  /** The name of the parameter's symbol, which Roslyn takes from the identifier's value text. */
  function SymbolName(p: Parameter): string {
    ValueText(p.identifier.text)
  }

  /**
    The type guard passes for any known type that is not a value type:
    reference types, but also unconstrained type parameters and pointers.
   */
  predicate IsKnownNonValueType(t: ParameterType) {
    t.KnownType? && !t.isValueType
  }

  /** The identifier sequence that marks a not-null contract for `name`. */
  function ContractTriple(name: string): seq<string> {
    ["Contract", "Requires", name]
  }

  function ValueTexts(ids: seq<string>): seq<string> {
    seq(|ids|, i requires 0 <= i < |ids| => ValueText(ids[i]))
  }

  /** The code's comparison: raw identifier texts against the symbol's name. */
  predicate IsNotNullContractAsWritten(e: Expr, symbolName: string) {
    Identifiers(e) == ContractTriple(symbolName)
  }

  /** The corrected comparison: the identifiers' value texts against the symbol's name. */
  predicate IsNotNullContractFor(e: Expr, symbolName: string) {
    ValueTexts(Identifiers(e)) == ContractTriple(symbolName)
  }

  /** `e` is `name != null` or `null != name`. */
  predicate IsNotNullTest(e: Expr, name: string) {
    || e == Binary(NotEquals, IdentifierName(name), NullLiteral)
    || e == Binary(NotEquals, NullLiteral, IdentifierName(name))
  }

  /**
    `Contract.Requires(paramName != null);` as an expression statement.
    Flattened, it is exactly the triple the detector looks for: the null
    literal contributes no identifier.
   */
  function CreateContractRequiresCall(paramName: string): (s: Stmt)
    ensures s.ExpressionStatement?
    ensures s.expr.Invocation? && s.expr.callee == MemberAccess(IdentifierName("Contract"), "Requires")
    ensures |s.expr.arguments| == 1 && IsNotNullTest(s.expr.arguments[0], paramName)
    ensures Identifiers(s.expr) == ContractTriple(paramName)
  {
    var memberAccess := MemberAccess(IdentifierName("Contract"), "Requires");
    var argument := Binary(NotEquals, IdentifierName(paramName), NullLiteral);
    assert Identifiers(argument) == [paramName] + [];
    assert ArgumentIdentifiers([argument]) == Identifiers(argument) + ArgumentIdentifiers([]);
    ExpressionStatement(Invocation(memberAccess, [argument]))
  }

  /** Whether some using directive has exactly the name `name` (`Usings.Any(...)`). */
  function AnyUsingNamed(usings: seq<string>, name: string): (found: bool)
    ensures found <==> name in usings
    decreases usings
  {
    if usings == [] then false
    else usings[0] == name || AnyUsingNamed(usings[1..], name)
  }

  function UsingStatementNotPresent(cu: CompilationUnit): (notPresent: bool)
    ensures notPresent <==> forall k :: 0 <= k < |cu.usings| ==> cu.usings[k] != ContractsNamespace
  {
    !AnyUsingNamed(cu.usings, ContractsNamespace)
  }

  /**
    Adds `using System.Diagnostics.Contracts;` at the host-chosen index
    (clamped to the list). The existing directives keep their order and the
    members are untouched.
   */
  function AddUsingStatement(cu: CompilationUnit, at: nat): (r: CompilationUnit)
    ensures r.members == cu.members
    ensures |r.usings| == |cu.usings| + 1
    ensures exists k :: 0 <= k <= |cu.usings| && r.usings == cu.usings[..k] + [ContractsNamespace] + cu.usings[k..]
    ensures multiset(r.usings) == multiset(cu.usings) + multiset{ContractsNamespace}
  {
    var k := if at <= |cu.usings| then at else |cu.usings|;
    assert cu.usings == cu.usings[..k] + cu.usings[k..];
    CompilationUnit(cu.usings[..k] + [ContractsNamespace] + cu.usings[k..], cu.members)
  }

  /**
    `HasNotNullContract`: a walk over the body that stops at the first
    expression statement, at any depth, whose identifiers are the triple.
   */
  function HasNotNullContract(body: Block, symbolName: string): (found: bool)
    ensures found <==> exists e :: e in ExpressionStatements(body) && IsNotNullContractFor(e, symbolName)
  {
    StatementsHaveContract(body.statements, symbolName)
  }

  function StatementsHaveContract(ss: seq<Stmt>, symbolName: string): (found: bool)
    ensures found <==> exists e :: e in ListExpressionStatements(ss) && IsNotNullContractFor(e, symbolName)
    decreases ss
  {
    if ss == [] then false
    else StatementHasContract(ss[0], symbolName) || StatementsHaveContract(ss[1..], symbolName)
  }

  function StatementHasContract(s: Stmt, symbolName: string): (found: bool)
    ensures found <==> exists e :: e in StmtExpressionStatements(s) && IsNotNullContractFor(e, symbolName)
    decreases s
  {
    match s
    case ExpressionStatement(e) => IsNotNullContractFor(e, symbolName)
    case NestedBlock(b) => StatementsHaveContract(b.statements, symbolName)
    case IfStatement(_, thenBranch, elseBranch) =>
      || StatementHasContract(thenBranch, symbolName)
      || (match elseBranch case Some(e) => StatementHasContract(e, symbolName) case None => false)
    case ReturnStatement(_) => false
    case CompoundStatement(children) => StatementsHaveContract(children, symbolName)
    case OtherStatement => false
  }

  /** The detector as the code writes it, comparing raw identifier texts. */
  function HasNotNullContractAsWritten(body: Block, symbolName: string): (found: bool)
    ensures found && ValueText(symbolName) == symbolName ==> HasNotNullContract(body, symbolName)
  {
    exists e :: e in ExpressionStatements(body) && IsNotNullContractAsWritten(e, symbolName)
  }

  function ContractFound(detector: Detector, body: Block, symbolName: string): bool {
    match detector
    case AsWritten => HasNotNullContractAsWritten(body, symbolName)
    case Corrected => HasNotNullContract(body, symbolName)
  }

  /**
    The guard cascade of GetActions, in the code's order: the requested span
    must lie in the identifier, the owner must have a block body, the type
    must be known and not a value type, and no contract may exist yet.
   */
  function Recognize(root: CompilationUnit, target: ParameterRef, span: TextSpan, facts: HostFacts, detector: Detector): (r: Recognition)
    requires ValidTarget(root, target)
    ensures r == Reject(SpanOutsideIdentifier) <==> !Param(root, target).identifier.span.Contains(span)
    ensures r == Reject(NoBlockBody) <==> Param(root, target).identifier.span.Contains(span) && OwnerBody(root, target).None?
    ensures r.Offer? <==>
      && Param(root, target).identifier.span.Contains(span)
      && OwnerBody(root, target).Some?
      && IsKnownNonValueType(facts.parameterType)
      && !ContractFound(detector, OwnerBody(root, target).value, SymbolName(Param(root, target)))
    ensures r.Offer? ==>
      && FirstBlockChild(root.members[target.member].children) == Some(r.bodyIndex)
      && Some(r.body) == OwnerBody(root, target)
  {
    var p := Param(root, target);
    if !p.identifier.span.Contains(span) then Reject(SpanOutsideIdentifier)
    else
      var children := root.members[target.member].children;
      match FirstBlockChild(children)
      case None => Reject(NoBlockBody)
      case Some(i) =>
        var body := children[i].block;
        if !IsKnownNonValueType(facts.parameterType) then Reject(TypeUnknownOrValueType)
        else if ContractFound(detector, body, SymbolName(p)) then Reject(ContractAlreadyPresent)
        else Offer(i, body)
  }

  /** `root.ReplaceNode(bodyStatement, newBody)` for the owner's first block child. */
  function ReplaceBody(root: CompilationUnit, target: ParameterRef, bodyIndex: nat, newBody: Block): (r: CompilationUnit)
    requires ValidTarget(root, target)
    requires bodyIndex < |root.members[target.member].children|
    ensures r.usings == root.usings
    ensures |r.members| == |root.members|
    ensures forall m :: 0 <= m < |root.members| && m != target.member ==> r.members[m] == root.members[m]
    ensures r.members[target.member].name == root.members[target.member].name
    ensures r.members[target.member].parameters == root.members[target.member].parameters
    ensures |r.members[target.member].children| == |root.members[target.member].children|
    ensures forall c :: 0 <= c < |root.members[target.member].children| && c != bodyIndex ==>
      r.members[target.member].children[c] == root.members[target.member].children[c]
    ensures r.members[target.member].children[bodyIndex] == BlockChild(newBody)
  {
    var member := root.members[target.member];
    var newMember := member.(children := member.children[bodyIndex := BlockChild(newBody)]);
    root.(members := root.members[target.member := newMember])
  }

  /**
    The deferred edit: the body becomes the contract statement followed by
    its original statements, then the contracts using directive is added
    unless one with that exact name is already present.
   */
  function ApplyAction(root: CompilationUnit, target: ParameterRef, usingIndex: nat): (r: CompilationUnit)
    requires ValidTarget(root, target)
    requires OwnerBody(root, target).Some?
    ensures ValidTarget(r, target)
    ensures Param(r, target) == Param(root, target)
    ensures OwnerBody(r, target) ==
      Some(Block([CreateContractRequiresCall(Param(root, target).identifier.text)] + OwnerBody(root, target).value.statements))
    ensures |r.members| == |root.members|
    ensures forall m :: 0 <= m < |root.members| && m != target.member ==> r.members[m] == root.members[m]
    ensures r.members[target.member].name == root.members[target.member].name
    ensures r.members[target.member].parameters == root.members[target.member].parameters
    ensures |r.members[target.member].children| == |root.members[target.member].children|
    ensures forall c :: 0 <= c < |root.members[target.member].children| && Some(c) != FirstBlockChild(root.members[target.member].children) ==>
      r.members[target.member].children[c] == root.members[target.member].children[c]
    ensures ContractsNamespace in r.usings
    ensures ContractsNamespace in root.usings ==> r.usings == root.usings
    ensures ContractsNamespace !in root.usings ==>
      multiset(r.usings) == multiset(root.usings) + multiset{ContractsNamespace}
    ensures r.usings == root.usings ||
      exists k :: 0 <= k <= |root.usings| && r.usings == root.usings[..k] + [ContractsNamespace] + root.usings[k..]
  {
    var children := root.members[target.member].children;
    var i := FirstBlockChild(children).value;
    var body := children[i].block;
    var p := Param(root, target);
    var newBody := Block([CreateContractRequiresCall(p.identifier.text)] + body.statements);
    var newRoot := ReplaceBody(root, target, i, newBody);
    assert FirstBlockChild(newRoot.members[target.member].children) == Some(i) by {
      FirstBlockChildAfterReplace(children, i, newBody);
    }
    if UsingStatementNotPresent(newRoot) then AddUsingStatement(newRoot, usingIndex)
    else newRoot
  }

  /** Replacing the first block child by another block leaves it the first block child. */
  lemma FirstBlockChildAfterReplace(children: seq<MemberChild>, i: nat, newBody: Block)
    requires FirstBlockChild(children) == Some(i)
    ensures FirstBlockChild(children[i := BlockChild(newBody)]) == Some(i)
  {
    var replaced := children[i := BlockChild(newBody)];
    assert replaced[i].BlockChild?;
    assert forall j :: 0 <= j < i ==> replaced[j] == children[j];
  }

  /** GetActions with a chosen detector: zero actions, or one Info action over the identifier. */
  function ActionsFor(root: CompilationUnit, target: ParameterRef, span: TextSpan, facts: HostFacts, detector: Detector): seq<CodeAction>
    requires ValidTarget(root, target)
  {
    match Recognize(root, target, span, facts, detector)
    case Reject(_) => []
    case Offer(_, _) =>
      [CodeAction(Param(root, target).identifier.span, Info, Title, ApplyAction(root, target, facts.usingIndex))]
  }

  /**
    The provider's GetActions, with the corrected detector. An action is
    offered exactly when every guard passes; it is then the only one, it is
    triggered by the identifier's span, and its severity is Info.
   */
  function GetActions(root: CompilationUnit, target: ParameterRef, span: TextSpan, facts: HostFacts): (actions: seq<CodeAction>)
    requires ValidTarget(root, target)
    ensures |actions| <= 1
    ensures !Param(root, target).identifier.span.Contains(span) ==> actions == []
    ensures OwnerBody(root, target).None? ==> actions == []
    ensures !IsKnownNonValueType(facts.parameterType) ==> actions == []
    ensures OwnerBody(root, target).Some? && HasNotNullContract(OwnerBody(root, target).value, SymbolName(Param(root, target))) ==>
      actions == []
    ensures |actions| == 1 <==>
      && Param(root, target).identifier.span.Contains(span)
      && OwnerBody(root, target).Some?
      && IsKnownNonValueType(facts.parameterType)
      && !HasNotNullContract(OwnerBody(root, target).value, SymbolName(Param(root, target)))
    ensures |actions| == 1 ==>
      && actions[0].triggerSpan == Param(root, target).identifier.span
      && actions[0].severity == Info
      && actions[0].title == Title
      && actions[0].changedRoot == ApplyAction(root, target, facts.usingIndex)
  {
    ActionsFor(root, target, span, facts, Corrected)
  }

  /** GetActions exactly as the code writes it, comparing raw identifier texts. */
  function GetActionsAsWritten(root: CompilationUnit, target: ParameterRef, span: TextSpan, facts: HostFacts): (actions: seq<CodeAction>)
    requires ValidTarget(root, target)
    ensures |actions| <= 1
    ensures |actions| == 1 <==>
      && Param(root, target).identifier.span.Contains(span)
      && OwnerBody(root, target).Some?
      && IsKnownNonValueType(facts.parameterType)
      && !HasNotNullContractAsWritten(OwnerBody(root, target).value, SymbolName(Param(root, target)))
    ensures |actions| == 1 ==>
      && actions[0].triggerSpan == Param(root, target).identifier.span
      && actions[0].severity == Info
      && actions[0].title == Title
      && actions[0].changedRoot == ApplyAction(root, target, facts.usingIndex)
  {
    ActionsFor(root, target, span, facts, AsWritten)
  }
}

=== FILE: syntax.dfy ===
/**
  A miniature, immutable C# syntax tree: just enough of Roslyn's node kinds to
  describe a parameter, its owning member, the member's body and the
  compilation unit's using directives. Children are held by value, so
  "replace a node" is rebuilding the path to it.
 */
module Syntax {
  import opened Wrappers

  /** Roslyn's TextSpan: the half-open range [start, start + length). */
  datatype TextSpan = TextSpan(start: nat, length: nat) {

    function End(): nat {
      start + length
    }

    /** TextSpan.Contains(TextSpan): `other` starts no earlier and ends no later than this span. */
    predicate Contains(other: TextSpan) {
      start <= other.start && other.End() <= End()
    }
  }

  /** An identifier token: its source text (a verbatim identifier keeps its '@') and its span. */
  datatype Token = Token(text: string, span: TextSpan)

  /**
    The identifier a token denotes (Roslyn's ValueText, which is also the name
    of the declared symbol): the text without the verbatim-identifier '@'.
   */
  function ValueText(text: string): string {
    if |text| > 0 && text[0] == '@' then text[1..] else text
  }

  datatype BinaryOperator = NotEquals | EqualsEquals | LogicalAnd | LogicalOr

  datatype Expr =
    | IdentifierName(identifier: string)
    | MemberAccess(target: Expr, name: string)
    | Invocation(callee: Expr, arguments: seq<Expr>)
    | Binary(op: BinaryOperator, left: Expr, right: Expr)
    | NullLiteral
    | OtherLiteral(text: string)

  datatype Stmt =
    | ExpressionStatement(expr: Expr)
    | NestedBlock(block: Block)
    | IfStatement(condition: Expr, thenBranch: Stmt, elseBranch: Option<Stmt>)
    | ReturnStatement(value: Option<Expr>)
      /** A loop, `try`, `using`, `lock`, `switch` or other statement, reduced to its child statements in source order. */
    | CompoundStatement(children: seq<Stmt>)
    | OtherStatement

  datatype Block = Block(statements: seq<Stmt>)

  /** A parameter declaration: its type as written and its identifier token. */
  datatype Parameter = Parameter(typeName: string, identifier: Token)

  /**
    The child nodes of a member other than its parameter list, in source
    order: a block body, an expression body (`=> e`), an accessor list (whose
    blocks are grandchildren, not children), or anything else.
   */
  datatype MemberChild =
    | BlockChild(block: Block)
    | ArrowExpressionChild(expr: Expr)
    | AccessorListChild(accessors: seq<Block>)
    | OtherChild

  /** A member owning a parameter list: method, constructor, operator, indexer, delegate, ... */
  datatype Member = Member(name: string, parameters: seq<Parameter>, children: seq<MemberChild>)

  /** The root: the names of the top-level using directives, then the members. */
  datatype CompilationUnit = CompilationUnit(usings: seq<string>, members: seq<Member>)

  /**
    The texts of the IdentifierName nodes of `e`, `e` included, in the
    pre-order of Roslyn's DescendantNodes. Literals contribute nothing.
   */
  function Identifiers(e: Expr): seq<string>
    decreases e
  {
    match e
    case IdentifierName(id) => [id]
    case MemberAccess(target, name) => Identifiers(target) + [name]
    case Invocation(callee, args) => Identifiers(callee) + ArgumentIdentifiers(args)
    case Binary(_, left, right) => Identifiers(left) + Identifiers(right)
    case NullLiteral => []
    case OtherLiteral(_) => []
  }

  function ArgumentIdentifiers(args: seq<Expr>): seq<string>
    decreases args
  {
    if args == [] then [] else Identifiers(args[0]) + ArgumentIdentifiers(args[1..])
  }

  /** Every expression statement nested anywhere in `b`, in pre-order. */
  function ExpressionStatements(b: Block): seq<Expr> {
    ListExpressionStatements(b.statements)
  }

  function ListExpressionStatements(ss: seq<Stmt>): seq<Expr>
    decreases ss
  {
    if ss == [] then [] else StmtExpressionStatements(ss[0]) + ListExpressionStatements(ss[1..])
  }

  function StmtExpressionStatements(s: Stmt): seq<Expr>
    decreases s
  {
    match s
    case ExpressionStatement(e) => [e]
    case NestedBlock(b) => ListExpressionStatements(b.statements)
    case IfStatement(_, thenBranch, elseBranch) =>
      StmtExpressionStatements(thenBranch)
      + (match elseBranch case Some(e) => StmtExpressionStatements(e) case None => [])
    case ReturnStatement(_) => []
    case CompoundStatement(children) => ListExpressionStatements(children)
    case OtherStatement => []
  }

  /**
    The index of the first block among a member's children, as
    `ChildNodes().OfType<BlockSyntax>().FirstOrDefault()` finds it, or None.
   */
  function FirstBlockChild(children: seq<MemberChild>): (r: Option<nat>)
    ensures r.Some? ==> r.value < |children| && children[r.value].BlockChild?
    ensures r.Some? ==> forall j :: 0 <= j < r.value ==> !children[j].BlockChild?
    ensures r.None? <==> forall j :: 0 <= j < |children| ==> !children[j].BlockChild?
    decreases children
  {
    if children == [] then None
    else if children[0].BlockChild? then Some(0)
    else
      match FirstBlockChild(children[1..])
      case None => None
      case Some(i) => Some(i + 1)
  }
}

=== FILE: wrappers.dfy ===
/** The optional value used wherever the C# code works with a reference that may be null. */
module Wrappers {

  datatype Option<+T> = None | Some(value: T)
}
